=== FILE: README.md ===
# UIView extension: gesture closures and subview collection

A Dafny model of the three pieces of logic in the SwiftTips `UIView`
extension:

- **Batch add.** `add(_:)` attaches several child views at once, in argument order.
- **Gesture closures.** Each view keeps an optional dictionary from gesture
  kind to closure. The six kinds are tap, pinch, rotation, swipe, pan and
  long press. The dictionary is keyed by the raw value of the kind's enum
  case. `addXGesture` stores a closure under its kind (overwriting an earlier
  one), turns on user interaction, attaches a new native recognizer of that
  kind and returns the view itself. When a recognizer fires, its action
  looks up the closure for its kind and calls it. If nothing is bound, it
  does nothing.
- **Subview collection.** `viewArray` walks the subview tree in pre-order and
  appends each child to a process-wide static array (`getAllsubviews`)
  before descending into that child. `getAllSubViews` clears the array and
  then walks. `getSubView(name:)` walks first, then clears, then filters
  the walk's result by class name.

Files:

- `gestures.dfy` (module `Gestures`): the table as a value. It holds the
  gesture kinds and their string keys, plus `Register` (the dictionary
  update) and `Lookup` (the dispatch lookup), with their algebra: after any sequence of
  registrations a kind dispatches to the closure registered for it last, last
  write wins, other kinds are untouched, registrations of different kinds commute,
  and the table has at most six entries.
- `viewtree.dfy` (module `ViewTree`): the subview tree as a datatype
  (`ViewNode`: id, class name, children). It gives the pre-order walk as a
  specification function (`PreOrder`), an independent descendant relation
  and count, and the name filter. Lemmas show:
  - the walk's length is the descendant count;
  - its members are exactly the descendants;
  - the root is never in it;
  - every view in it is immediately followed by its own subtree's walk;
  - filtering keeps order (it yields a subsequence) and distributes over
    concatenation.
- `uiview.dfy` (module `UIViewModel`): the state the source updates in place.
  - Class `View` has `subviews`, the optional `gestureDict`,
    `isUserInteractionEnabled` and the attached recognizers as a sequence of
    kinds. Its methods are `Add`, `AddGesture`, the six public
    registrations, `ExecuteGestureAction`, and the recognizer action.
    `Tree()` gives the view and its children as a tree value.
  - Class `SubviewCollector` holds the static accumulator. Its methods are
    the recursive `ViewArray` and the two public queries.
- `scenarios.dfy` (module `Scenarios`): concrete clients. One is the tree
  R → [A → [C], B], built with `add(_:)` and walked as [A, C, B]. The others are the stale-accumulator
  witness and a tap gesture registered twice.

Two behaviours of the code matter here:

- The code attaches a new recognizer on every registration, even when one of
  the same kind is already attached. So registering a kind twice leaves two
  recognizers, and both run the surviving closure
  (`Scenarios.ReRegisterScenario`).
- The code's `getSubView` does not start from an empty accumulator (see
  Findings).

## Model

| member | source | states |
|---|---|---|
| `Gestures.Register` | Downloads/SwiftTips-master/SwiftTipsDemo/DCTool/Extension/UIView+Extension.swift:81-88 | after registering, the kind's key maps to the new closure; every other key keeps exactly its old binding or absence; with no table yet the result is the one-entry table; re-registering a bound kind keeps the size, a new kind grows it by one |
| `Gestures.Key` | Downloads/SwiftTips-master/SwiftTipsDemo/DCTool/Extension/UIView+Extension.swift:24-31 | each kind's dictionary key is the raw value of its enum case, one of the six keys |
| `Gestures.DispatchAfterRegistrations` | Downloads/SwiftTips-master/SwiftTipsDemo/DCTool/Extension/UIView+Extension.swift:129-134 | after any sequence of registrations, a kind dispatches to the closure registered for it last, or to what it dispatched to before when none was for it |
| `Gestures.KeyInjective` | Downloads/SwiftTips-master/SwiftTipsDemo/DCTool/Extension/UIView+Extension.swift:24-31 | distinct gesture kinds have distinct raw-value keys, all among the six |
| `Gestures.DispatchAfterRegister` | Downloads/SwiftTips-master/SwiftTipsDemo/DCTool/Extension/UIView+Extension.swift:81-88 | firing a kind right after registering it reaches the new closure |
| `Gestures.DispatchOtherKind` | Downloads/SwiftTips-master/SwiftTipsDemo/DCTool/Extension/UIView+Extension.swift:83-85 | registering one kind does not change what any other kind dispatches to |
| `Gestures.ReRegisterReplaces` | Downloads/SwiftTips-master/SwiftTipsDemo/DCTool/Extension/UIView+Extension.swift:83-85 | registering a kind twice gives the same table as registering only the second closure |
| `Gestures.RegisterCommutes` | Downloads/SwiftTips-master/SwiftTipsDemo/DCTool/Extension/UIView+Extension.swift:81-88 | registrations of two different kinds give the same table in either order |
| `Gestures.TableBounded` | Downloads/SwiftTips-master/SwiftTipsDemo/DCTool/Extension/UIView+Extension.swift:24-31 | a table keyed only by gesture-kind raw values has at most six entries |
| `UIViewModel.ValidTableBounded` | Downloads/SwiftTips-master/SwiftTipsDemo/DCTool/Extension/UIView+Extension.swift:81-88 | a view's table, whose keys come only from registrations, never has more than six entries |
| `ViewTree.PreOrderLength` | Downloads/SwiftTips-master/SwiftTipsDemo/DCTool/Extension/UIView+Extension.swift:148-155 | the walk lists as many views as the root has descendants (children plus their descendants) |
| `ViewTree.PreOrderMembers` | Downloads/SwiftTips-master/SwiftTipsDemo/DCTool/Extension/UIView+Extension.swift:148-155 | a view is in the walk if and only if it is reachable from the root by one or more child steps |
| `ViewTree.DescendantIsSmaller` | Downloads/SwiftTips-master/SwiftTipsDemo/DCTool/Extension/UIView+Extension.swift:148-155 | a descendant has strictly fewer descendants than its ancestor, so no view is its own descendant |
| `ViewTree.RootExcluded` | Downloads/SwiftTips-master/SwiftTipsDemo/DCTool/Extension/UIView+Extension.swift:148-155 | the root never appears in its own walk |
| `ViewTree.SubtreeFollows` | Downloads/SwiftTips-master/SwiftTipsDemo/DCTool/Extension/UIView+Extension.swift:149-153 | pre-order: each view of the walk is immediately followed by the walk of its own subtree |
| `ViewTree.FilterByName` | Downloads/SwiftTips-master/SwiftTipsDemo/DCTool/Extension/UIView+Extension.swift:142 | the filtered views are exactly the input's views whose class name equals the given name, and there are no more of them than of the input |
| `ViewTree.FilterIsSubsequence` | Downloads/SwiftTips-master/SwiftTipsDemo/DCTool/Extension/UIView+Extension.swift:142 | the filter keeps the input's order: its result is a subsequence of the input |
| `ViewTree.FilterAppend` | Downloads/SwiftTips-master/SwiftTipsDemo/DCTool/Extension/UIView+Extension.swift:139-143 | filtering a concatenation is the concatenation of the filtered parts (stale entries then fresh ones) |
| `UIViewModel.View.AddSubview` | Downloads/SwiftTips-master/SwiftTipsDemo/DCTool/Extension/UIView+Extension.swift:16 | one child is appended to `subviews`; no other field changes |
| `UIViewModel.View.Add` | Downloads/SwiftTips-master/SwiftTipsDemo/DCTool/Extension/UIView+Extension.swift:15-17 | `subviews` becomes the old children followed by the arguments in argument order; no other field changes |
| `UIViewModel.View.AddGestureRecognizer` | Downloads/SwiftTips-master/SwiftTipsDemo/DCTool/Extension/UIView+Extension.swift:90-109 | exactly one recognizer of the given kind is appended |
| `UIViewModel.View.AddGesture` | Downloads/SwiftTips-master/SwiftTipsDemo/DCTool/Extension/UIView+Extension.swift:81-110 | the table becomes `Register` of the old one; user interaction is on; exactly one recognizer of the kind is appended even if one was attached already; the view invariant (attached kinds are exactly the bound kinds) is kept |
| `UIViewModel.View.AddTapGesture` | Downloads/SwiftTips-master/SwiftTipsDemo/DCTool/Extension/UIView+Extension.swift:46-49 | binds tap, appends a tap recognizer, returns the receiver |
| `UIViewModel.View.AddPinchGesture` | Downloads/SwiftTips-master/SwiftTipsDemo/DCTool/Extension/UIView+Extension.swift:52-55 | binds pinch, appends a pinch recognizer, returns the receiver |
| `UIViewModel.View.AddRotationGesture` | Downloads/SwiftTips-master/SwiftTipsDemo/DCTool/Extension/UIView+Extension.swift:58-61 | binds rotation, appends a rotation recognizer, returns the receiver |
| `UIViewModel.View.AddSwipeGesture` | Downloads/SwiftTips-master/SwiftTipsDemo/DCTool/Extension/UIView+Extension.swift:64-67 | binds swipe, appends a swipe recognizer, returns the receiver |
| `UIViewModel.View.AddPanGesture` | Downloads/SwiftTips-master/SwiftTipsDemo/DCTool/Extension/UIView+Extension.swift:70-73 | binds pan, appends a pan recognizer, returns the receiver |
| `UIViewModel.View.AddLongPressGesture` | Downloads/SwiftTips-master/SwiftTipsDemo/DCTool/Extension/UIView+Extension.swift:76-79 | binds long press, appends a long-press recognizer, returns the receiver |
| `UIViewModel.View.ExecuteGestureAction` | Downloads/SwiftTips-master/SwiftTipsDemo/DCTool/Extension/UIView+Extension.swift:129-134 | the bound closure is invoked once, with the firing recognizer, exactly when the table exists and binds the kind; otherwise nothing is invoked |
| `UIViewModel.View.RecognizerFired` | Downloads/SwiftTips-master/SwiftTipsDemo/DCTool/Extension/UIView+Extension.swift:111-128 | an attached recognizer's action passes the recognizer itself and dispatches its own kind; on a valid view it always invokes the closure bound to that kind |
| `UIViewModel.SubviewCollector.constructor` | Downloads/SwiftTips-master/SwiftTipsDemo/DCTool/Extension/UIView+Extension.swift:138 | the shared accumulator starts out empty |
| `UIViewModel.SubviewCollector.ViewArray` | Downloads/SwiftTips-master/SwiftTipsDemo/DCTool/Extension/UIView+Extension.swift:148-156 | the accumulator gains the root's pre-order walk at its end, and the whole accumulator is returned |
| `UIViewModel.SubviewCollector.GetAllSubViews` | Downloads/SwiftTips-master/SwiftTipsDemo/DCTool/Extension/UIView+Extension.swift:144-147 | the result is the root's pre-order walk whatever earlier calls left behind, and the accumulator is left equal to it |
| `UIViewModel.SubviewCollector.GetSubView` | Downloads/SwiftTips-master/SwiftTipsDemo/DCTool/Extension/UIView+Extension.swift:139-143 | the result is the matching views of the accumulator on entry followed by the matching views of the walk; the accumulator is left empty; with an empty accumulator on entry it is the filtered walk |
| `UIViewModel.SubviewCollector.GetSubViewFresh` | Downloads/SwiftTips-master/SwiftTipsDemo/DCTool/Extension/UIView+Extension.swift:139-143 | corrected order of resets: the result is the filtered walk, a subsequence of it, holding exactly the descendants with the given class name |
| `Scenarios.SampleWalk` | Downloads/SwiftTips-master/SwiftTipsDemo/DCTool/Extension/UIView+Extension.swift:148-156 | the tree R → [A → [C], B] is walked as [A, C, B] |
| `Scenarios.SampleLabels` | Downloads/SwiftTips-master/SwiftTipsDemo/DCTool/Extension/UIView+Extension.swift:142 | of [A, C, B] only C has class name `UILabel` |
| `Scenarios.StaleSubViewWitness` | Downloads/SwiftTips-master/SwiftTipsDemo/DCTool/Extension/UIView+Extension.swift:139-147 | `getAllSubViews` then `getSubView(name: "UILabel")` on R, as written, returns [C, C] |
| `Scenarios.FreshSubViewWitness` | Downloads/SwiftTips-master/SwiftTipsDemo/DCTool/Extension/UIView+Extension.swift:139-147 | the same calls with the reset before the walk return [C] |
| `Scenarios.ReRegisterScenario` | Downloads/SwiftTips-master/SwiftTipsDemo/DCTool/Extension/UIView+Extension.swift:81-110 | registering tap twice by chaining leaves two tap recognizers; each, when it fires, invokes the second closure with itself, never the first closure |
| `Scenarios.BuildAndWalk` | Downloads/SwiftTips-master/SwiftTipsDemo/DCTool/Extension/UIView+Extension.swift:15-17 | building R by `add(_:)` on view objects (C into A, then A and B into R) and walking R's tree gives [A, C, B] |

## Findings

| source | as written | input that shows it | evidently intended | confidence | as-written member | corrected member |
|---|---|---|---|---|---|---|
| Downloads/SwiftTips-master/SwiftTipsDemo/DCTool/Extension/UIView+Extension.swift:139-143 | `getSubView` walks before it clears the shared accumulator, so views left there by an earlier `getAllSubViews` are filtered into its result | on R → [A → [C], B] with only C a `UILabel`: `getAllSubViews()` then `getSubView(name: "UILabel")` returns [C, C] | clear before walking, as `getAllSubViews` does, giving [C] | not executed; high | `Scenarios.StaleSubViewWitness` | `UIViewModel.SubviewCollector.GetSubViewFresh` |

## Left out

- Native recognizer construction and target/action selector wiring are toolkit calls. A recognizer is modelled only by its kind, appended to `gestureRecognizers`. Firing is `RecognizerFired`. It takes the recognizer's position among the attached recognizers, which also serves as the recognizer's identity.
- `gestureRecognizers` holds only the recognizers this extension attached. Recognizers that other code adds to the view are not modelled.
- The associated-object storage (`objc_getAssociatedObject` / `objc_setAssociatedObject`, with copy semantics) is modelled as an optional map field of the view.
- Closures are opaque ids, and the recognizer passed to them is identified by its position. A dispatch returns the invocation it makes. What a closure does when called is not modelled.
- The runtime `className` reflection is a string field of `ViewNode`.
- The `isKind(of: UIView.self)` test always holds for a subview, so every child is appended.
- The toolkit's view initializers are not part of this model. The `View` constructor only sets up the state the extension reads, with no children and no gestures.
- `AddSubview` appends. The toolkit's re-parenting is not modelled: removing a view from a previous superview, or moving an already attached child to the end.
- Children are tree values (`ViewNode`), not `View` objects. Identity and aliasing between a view object and the nodes of its tree are not modelled, and a child's own gesture table is not reachable from the tree.
- The static accumulator is one `SubviewCollector` object. Concurrent or reentrant use of it from several threads is not modelled; a single sequential caller is assumed.
- `@discardableResult` only silences a compiler warning and has no behaviour.

=== FILE: gestures.dfy ===
/** The closure table a view keeps per gesture kind: its keys, registration
    into it and lookup from it. */
module Gestures {

  datatype Option<T> = None | Some(value: T)

  /** The six gesture kinds a view can register a closure for. */
  datatype GestureKind = Tap | Pinch | Rotation | Swipe | Pan | LongPress

  /** A registered closure, identified opaquely. */
  type CallbackId = nat

  /** The live recognizer handed to a closure when it fires, identified by its
      position among the recognizers attached to the view. */
  type RecognizerId = nat

  /** The table is keyed by strings: the raw value of the kind's enum case. */
  type GestureTable = map<string, CallbackId>

  /** The raw value of each gesture kind, used as its key in the table. */
  function Key(kind: GestureKind): (r: string)
    ensures r in AllKeys
  {
    match kind
    case Tap => "tapGesture"
    case Pinch => "pinchGesture"
    case Rotation => "rotationGesture"
    case Swipe => "swipeGesture"
    case Pan => "panGesture"
    case LongPress => "longPressGesture"
  }

  /** Every key the table can ever hold. */
  const AllKeys: set<string> :=
    {"tapGesture", "pinchGesture", "rotationGesture", "swipeGesture", "panGesture", "longPressGesture"}

  /** The table after registering `callback` for `kind`: if the view has no
      table yet, a fresh one holding only that binding; otherwise the old table
      with the binding inserted or overwritten. */
  function Register(table: Option<GestureTable>, kind: GestureKind, callback: CallbackId): (r: GestureTable)
    ensures Key(kind) in r && r[Key(kind)] == callback
    ensures forall key :: key != Key(kind) ==>
              (key in r <==> table.Some? && key in table.value) &&
              (key in r ==> r[key] == table.value[key])
    ensures table.None? ==> r == map[Key(kind) := callback]
    ensures table.Some? && Key(kind) in table.value ==> |r| == |table.value|
    ensures table.Some? && Key(kind) !in table.value ==> |r| == |table.value| + 1
  {
    match table
    case Some(t) => t[Key(kind) := callback]
    case None => map[Key(kind) := callback]
  }

  /** The closure that fires for `kind`, if any: none when the view has no
      table or nothing is bound under the kind's key. */
  function Lookup(table: Option<GestureTable>, kind: GestureKind): Option<CallbackId>
  {
    if table.Some? && Key(kind) in table.value then Some(table.value[Key(kind)]) else None
  }

  // ---------------------------------------------------------------------
  // Properties of the table.

  /** Distinct kinds never share a key, and every key is one of `AllKeys`. */
  lemma KeyInjective(k1: GestureKind, k2: GestureKind)
    ensures Key(k1) == Key(k2) <==> k1 == k2
    ensures Key(k1) in AllKeys
  {
  }

  /** Registering and then firing the same kind reaches the new closure. */
  lemma DispatchAfterRegister(table: Option<GestureTable>, kind: GestureKind, callback: CallbackId)
    ensures Lookup(Some(Register(table, kind, callback)), kind) == Some(callback)
  {
  }

  /** Registering one kind leaves what every other kind fires untouched. */
  lemma DispatchOtherKind(table: Option<GestureTable>, kind: GestureKind, other: GestureKind, callback: CallbackId)
    requires other != kind
    ensures Lookup(Some(Register(table, kind, callback)), other) == Lookup(table, other)
  {
    KeyInjective(kind, other);
  }

  /** Re-registering a kind discards the earlier closure: the last
      registration wins, as if the first had never happened. */
  lemma ReRegisterReplaces(table: Option<GestureTable>, kind: GestureKind, first: CallbackId, second: CallbackId)
    ensures Register(Some(Register(table, kind, first)), kind, second) == Register(table, kind, second)
  {
  }

  /** One registration: a closure for a gesture kind. */
  datatype Registration = Registration(kind: GestureKind, callback: CallbackId)

  /** The table after the registrations `regs`, made in order. */
  function RegisterAll(table: Option<GestureTable>, regs: seq<Registration>): Option<GestureTable>
    decreases |regs|
  {
    if regs == [] then table
    else RegisterAll(Some(Register(table, regs[0].kind, regs[0].callback)), regs[1..])
  }

  /** The closure of the last registration for `kind` in `regs`, or `prior`
      when `regs` registers nothing for it. */
  function LastFor(regs: seq<Registration>, kind: GestureKind, prior: Option<CallbackId>): Option<CallbackId>
    decreases |regs|
  {
    if regs == [] then prior
    else LastFor(regs[1..], kind, if regs[0].kind == kind then Some(regs[0].callback) else prior)
  }

  /** After any sequence of registrations, a kind dispatches to the closure
      registered for it last, or to what it dispatched to before when none of
      them was for it. */
  lemma {:induction false} DispatchAfterRegistrations(table: Option<GestureTable>, regs: seq<Registration>, kind: GestureKind)
    ensures Lookup(RegisterAll(table, regs), kind) == LastFor(regs, kind, Lookup(table, kind))
    decreases |regs|
  {
    if regs != [] {
      var next := Some(Register(table, regs[0].kind, regs[0].callback));
      if regs[0].kind == kind {
        DispatchAfterRegister(table, kind, regs[0].callback);
      } else {
        DispatchOtherKind(table, regs[0].kind, kind, regs[0].callback);
      }
      DispatchAfterRegistrations(next, regs[1..], kind);
    }
  }

  /** Registrations for different kinds do not interfere: their order does
      not matter. */
  lemma RegisterCommutes(table: Option<GestureTable>, k1: GestureKind, c1: CallbackId, k2: GestureKind, c2: CallbackId)
    requires k1 != k2
    ensures Register(Some(Register(table, k1, c1)), k2, c2) == Register(Some(Register(table, k2, c2)), k1, c1)
  {
    KeyInjective(k1, k2);
    var base: GestureTable := match table case Some(t) => t case None => map[];
    UpdatesCommute(base, Key(k1), c1, Key(k2), c2);
  }

  lemma UpdatesCommute(m: GestureTable, a: string, x: CallbackId, b: string, y: CallbackId)
    requires a != b
    ensures m[a := x][b := y] == m[b := y][a := x]
  {
    var l, r := m[a := x][b := y], m[b := y][a := x];
    assert l.Keys == r.Keys;
    assert forall k | k in l :: l[k] == r[k];
  }

  /** A table built by registrations holds only the six kind keys, so it never
      has more than six entries. */
  lemma {:induction false} TableBounded(table: GestureTable)
    requires table.Keys <= AllKeys
    ensures |table| <= 6
  {
    assert |AllKeys| == 6;
    SubsetCard(table.Keys, AllKeys);
  }

  lemma {:induction false} SubsetCard(a: set<string>, b: set<string>)
    requires a <= b
    ensures |a| <= |b|
    decreases b
  {
    if a != {} {
      var x :| x in a;
      SubsetCard(a - {x}, b - {x});
    }
  }
}

=== FILE: scenarios.dfy ===
/** Concrete clients of the extension: a small view tree walked and filtered,
    and one view whose tap gesture is registered twice. */
module Scenarios {
  import opened Gestures
  import opened ViewTree
  import opened UIViewModel

  // Root has children [A, B]; A has the single child C, the only label.
  const LabelC := ViewNode(3, "UILabel", [])
  const ViewA := ViewNode(1, "UIView", [LabelC])
  const ButtonB := ViewNode(2, "UIButton", [])
  const Root := ViewNode(0, "UIView", [ViewA, ButtonB])

  /** The walk of the sample tree visits A, then A's child C, then B. */
  lemma SampleWalk()
    ensures PreOrder(Root) == [ViewA, LabelC, ButtonB]
  {
    assert PreOrder(LabelC) == [] && PreOrder(ButtonB) == [];
    assert [ViewA, ButtonB][..1] == [ViewA];
    assert PreOrderSeq([ViewA]) == [ViewA, LabelC] by {
      assert [ViewA][..0] == [];
      assert PreOrder(ViewA) == PreOrderSeq([LabelC]);
      assert [LabelC][..0] == [];
    }
  }

  /** Of the sample's descendants, only C is a label. */
  lemma SampleLabels()
    ensures FilterByName([ViewA, LabelC, ButtonB], "UILabel") == [LabelC]
  {
    var s := [ViewA, LabelC, ButtonB];
    assert s[1..] == [LabelC, ButtonB] && s[1..][1..] == [ButtonB] && s[1..][1..][1..] == [];
    assert ViewA.className != "UILabel" && ButtonB.className != "UILabel";
    assert FilterByName([ButtonB], "UILabel") == [];
  }

  /** Listing every subview and then asking for the labels, as the code is
      written: the label left in the accumulator by the first call is
      reported a second time. */
  method StaleSubViewWitness() returns (all: seq<ViewNode>, labels: seq<ViewNode>)
    ensures all == [ViewA, LabelC, ButtonB]
    ensures labels == [LabelC, LabelC]
  {
    var collector := new SubviewCollector();
    SampleWalk();
    all := collector.GetAllSubViews(Root);
    labels := collector.GetSubView(Root, "UILabel");
    SampleLabels();
  }

  /** The same two calls with the reset made before the walk: only the one
      label. */
  method FreshSubViewWitness() returns (all: seq<ViewNode>, labels: seq<ViewNode>)
    ensures all == [ViewA, LabelC, ButtonB]
    ensures labels == [LabelC]
  {
    var collector := new SubviewCollector();
    SampleWalk();
    all := collector.GetAllSubViews(Root);
    labels := collector.GetSubViewFresh(Root, "UILabel");
    SampleLabels();
  }

  /** Registering tap twice on one view, by chaining: the second closure
      replaces the first in the table, yet two tap recognizers are attached,
      and each of them, when it fires, runs the second closure. */
  method ReRegisterScenario() returns (first: Option<Invocation>, second: Option<Invocation>, recognizers: seq<GestureKind>)
    ensures first == Some(Invocation(2, 0)) && second == Some(Invocation(2, 1))
    ensures recognizers == [Tap, Tap]
  {
    var view := new View(0, "UIView", false);
    var same := view.AddTapGesture(1);
    same := same.AddTapGesture(2);
    first := view.RecognizerFired(0);
    second := view.RecognizerFired(1);
    recognizers := view.gestureRecognizers;
  }

  /** The sample tree built with `add(_:)` on view objects, then walked from
      the root object's own tree. */
  method BuildAndWalk() returns (all: seq<ViewNode>)
    ensures all == [ViewA, LabelC, ButtonB]
  {
    var a := new View(1, "UIView", true);
    a.Add([LabelC]);
    assert a.subviews == [LabelC];
    var root := new View(0, "UIView", true);
    root.Add([a.Tree(), ButtonB]);
    assert root.subviews == [ViewA, ButtonB];
    assert root.Tree() == Root;
    var collector := new SubviewCollector();
    SampleWalk();
    all := collector.GetAllSubViews(root.Tree());
  }
}

=== FILE: uiview.dfy ===
/** The view extension: batch child attachment, closure-based gesture
    registration and dispatch, and the subview walk over a shared accumulator. */
module UIViewModel {
  import opened Gestures
  import opened ViewTree

  /** A closure call made by dispatch: which closure ran, with which recognizer. */
  datatype Invocation = Invocation(callback: CallbackId, recognizer: RecognizerId)

  /** A view, with the state the extension reads and writes in place. */
  class View {
    const id: nat
    const className: string
    /** The children, in the toolkit's `subviews` order. */
    var subviews: seq<ViewNode>
    /** The associated closure table; absent until the first registration. */
    var gestureDict: Option<GestureTable>
    var isUserInteractionEnabled: bool
    /** The kinds of the recognizers the extension has attached, oldest first. */
    var gestureRecognizers: seq<GestureKind>

    /** Every attached recognizer's kind has a closure bound, every bound kind
        has a recognizer, and the table holds only gesture-kind keys. */
    ghost predicate Valid()
      reads this
    {
      && (forall k :: k in gestureRecognizers <==> Lookup(gestureDict, k).Some?)
      && (gestureDict.Some? ==> gestureDict.value.Keys <= AllKeys)
    }

    /** This view and its subviews as a tree value. */
    function Tree(): ViewNode
      reads this
    {
      ViewNode(id, className, subviews)
    }

    /** A view with no children and no gestures. */
    constructor (id: nat, className: string, interactive: bool)
      ensures Valid()
      ensures this.id == id && this.className == className
      ensures subviews == [] && gestureDict == None && gestureRecognizers == []
      ensures isUserInteractionEnabled == interactive
    {
      this.id := id;
      this.className := className;
      subviews := [];
      gestureDict := None;
      isUserInteractionEnabled := interactive;
      gestureRecognizers := [];
    }

    /** The toolkit's `addSubview`, for a view not yet attached anywhere. */
    method AddSubview(view: ViewNode)
      modifies this`subviews
      ensures subviews == old(subviews) + [view]
    {
      subviews := subviews + [view];
    }

    /** Attaches each of `views` as a subview, in argument order. */
    method Add(views: seq<ViewNode>)
      modifies this`subviews
      ensures subviews == old(subviews) + views
    {
      for i := 0 to |views|
        invariant subviews == old(subviews) + views[..i]
      {
        assert views[..i + 1] == views[..i] + [views[i]];
        AddSubview(views[i]);
      }
      assert views[..|views|] == views;
    }

    /** The toolkit's `addGestureRecognizer`: attaches a new recognizer. */
    method AddGestureRecognizer(kind: GestureKind)
      modifies this`gestureRecognizers
      ensures gestureRecognizers == old(gestureRecognizers) + [kind]
    {
      gestureRecognizers := gestureRecognizers + [kind];
    }

    /** Binds `gesture` to `kind` (replacing an earlier closure), enables user
        interaction and attaches one new recognizer of `kind`, even when one of
        that kind is already attached. */
    method AddGesture(gesture: CallbackId, kind: GestureKind)
      requires Valid()
      modifies this`gestureDict, this`isUserInteractionEnabled, this`gestureRecognizers
      ensures Valid()
      ensures gestureDict == Some(Register(old(gestureDict), kind, gesture))
      ensures isUserInteractionEnabled
      ensures gestureRecognizers == old(gestureRecognizers) + [kind]
    {
      var gestureKey := Key(kind);
      if gestureDict.Some? {
        var dict := gestureDict.value;
        dict := dict[gestureKey := gesture];
        gestureDict := Some(dict);
      } else {
        gestureDict := Some(map[gestureKey := gesture]);
      }
      isUserInteractionEnabled := true;
      match kind {
        case Tap => AddGestureRecognizer(Tap);
        case Pinch => AddGestureRecognizer(Pinch);
        case Rotation => AddGestureRecognizer(Rotation);
        case Swipe => AddGestureRecognizer(Swipe);
        case Pan => AddGestureRecognizer(Pan);
        case LongPress => AddGestureRecognizer(LongPress);
      }
      forall k | k != kind
        ensures Lookup(gestureDict, k) == Lookup(old(gestureDict), k)
      {
        DispatchOtherKind(old(gestureDict), kind, k, gesture);
      }
      KeyInjective(kind, kind);
    }

    method AddTapGesture(gesture: CallbackId) returns (r: View)
      requires Valid()
      modifies this`gestureDict, this`isUserInteractionEnabled, this`gestureRecognizers
      ensures r == this && Valid()
      ensures gestureDict == Some(Register(old(gestureDict), Tap, gesture))
      ensures isUserInteractionEnabled && gestureRecognizers == old(gestureRecognizers) + [Tap]
    {
      AddGesture(gesture, Tap);
      r := this;
    }

    method AddPinchGesture(gesture: CallbackId) returns (r: View)
      requires Valid()
      modifies this`gestureDict, this`isUserInteractionEnabled, this`gestureRecognizers
      ensures r == this && Valid()
      ensures gestureDict == Some(Register(old(gestureDict), Pinch, gesture))
      ensures isUserInteractionEnabled && gestureRecognizers == old(gestureRecognizers) + [Pinch]
    {
      AddGesture(gesture, Pinch);
      r := this;
    }

    method AddRotationGesture(gesture: CallbackId) returns (r: View)
      requires Valid()
      modifies this`gestureDict, this`isUserInteractionEnabled, this`gestureRecognizers
      ensures r == this && Valid()
      ensures gestureDict == Some(Register(old(gestureDict), Rotation, gesture))
      ensures isUserInteractionEnabled && gestureRecognizers == old(gestureRecognizers) + [Rotation]
    {
      AddGesture(gesture, Rotation);
      r := this;
    }

    method AddSwipeGesture(gesture: CallbackId) returns (r: View)
      requires Valid()
      modifies this`gestureDict, this`isUserInteractionEnabled, this`gestureRecognizers
      ensures r == this && Valid()
      ensures gestureDict == Some(Register(old(gestureDict), Swipe, gesture))
      ensures isUserInteractionEnabled && gestureRecognizers == old(gestureRecognizers) + [Swipe]
    {
      AddGesture(gesture, Swipe);
      r := this;
    }

    method AddPanGesture(gesture: CallbackId) returns (r: View)
      requires Valid()
      modifies this`gestureDict, this`isUserInteractionEnabled, this`gestureRecognizers
      ensures r == this && Valid()
      ensures gestureDict == Some(Register(old(gestureDict), Pan, gesture))
      ensures isUserInteractionEnabled && gestureRecognizers == old(gestureRecognizers) + [Pan]
    {
      AddGesture(gesture, Pan);
      r := this;
    }

    method AddLongPressGesture(gesture: CallbackId) returns (r: View)
      requires Valid()
      modifies this`gestureDict, this`isUserInteractionEnabled, this`gestureRecognizers
      ensures r == this && Valid()
      ensures gestureDict == Some(Register(old(gestureDict), LongPress, gesture))
      ensures isUserInteractionEnabled && gestureRecognizers == old(gestureRecognizers) + [LongPress]
    {
      AddGesture(gesture, LongPress);
      r := this;
    }

    /** Calls the closure bound to `kind` once, with `recognizer`; does nothing
        when the view has no table or nothing is bound to `kind`. */
    method ExecuteGestureAction(kind: GestureKind, recognizer: RecognizerId) returns (r: Option<Invocation>)
      ensures r.Some? <==> Lookup(gestureDict, kind).Some?
      ensures r.Some? ==> r.value == Invocation(Lookup(gestureDict, kind).value, recognizer)
    {
      match Lookup(gestureDict, kind) {
        case Some(gestureReg) => r := Some(Invocation(gestureReg, recognizer));
        case None => r := None;
      }
    }

    /** The recognizer at `index` (which is also its identity) fires: its
        target action passes itself on and dispatches its own kind, which on a
        valid view always finds a closure. */
    method RecognizerFired(index: nat) returns (r: Option<Invocation>)
      requires Valid() && index < |gestureRecognizers|
      ensures r.Some?
      ensures r.value.recognizer == index
      ensures Lookup(gestureDict, gestureRecognizers[index]) == Some(r.value.callback)
    {
      var kind := gestureRecognizers[index];
      assert kind in gestureRecognizers;
      r := ExecuteGestureAction(kind, index);
    }
  }

  /** The walk's process-wide accumulator (`getAllsubviews`), shared by every
      view, and the operations that append to and reset it. */
  class SubviewCollector {
    var collected: seq<ViewNode>

    constructor ()
      ensures collected == []
    {
      collected := [];
    }

    /** Appends every descendant of `root` to the accumulator in pre-order
        and returns the whole accumulator. */
    method ViewArray(root: ViewNode) returns (r: seq<ViewNode>)
      modifies this
      ensures collected == old(collected) + PreOrder(root)
      ensures r == collected
      decreases root
    {
      var children := root.subviews;
      for i := 0 to |children|
        invariant collected == old(collected) + PreOrderSeq(children[..i])
      {
        var view := children[i];
        assert children[..i + 1][..i] == children[..i];
        collected := collected + [view];
        var _ := ViewArray(view);
      }
      assert children[..|children|] == children;
      r := collected;
    }

    /** Resets the accumulator, then walks: every descendant of `root` in
        pre-order, whatever an earlier call left behind. */
    method GetAllSubViews(root: ViewNode) returns (r: seq<ViewNode>)
      modifies this
      ensures r == PreOrder(root)
      ensures collected == r
    {
      collected := [];
      r := ViewArray(root);
    }

    /** Walks first and resets afterwards, so the result also holds the
        matching views an earlier `GetAllSubViews` left in the accumulator. */
    method GetSubView(root: ViewNode, name: string) returns (r: seq<ViewNode>)
      modifies this
      ensures r == FilterByName(old(collected), name) + FilterByName(PreOrder(root), name)
      ensures old(collected) == [] ==> r == FilterByName(PreOrder(root), name)
      ensures collected == []
    {
      var viewArr := ViewArray(root);
      collected := [];
      r := FilterByName(viewArr, name);
      FilterAppend(old(collected), PreOrder(root), name);
    }

    /** `GetSubView` with the reset moved before the walk, so that the result
        depends on `root` and `name` alone. */
    method GetSubViewFresh(root: ViewNode, name: string) returns (r: seq<ViewNode>)
      modifies this
      ensures r == FilterByName(PreOrder(root), name)
      ensures IsSubsequence(r, PreOrder(root))
      ensures forall x :: x in r <==> IsDescendant(x, root) && x.className == name
      ensures collected == []
    {
      collected := [];
      var viewArr := ViewArray(root);
      assert viewArr == PreOrder(root);
      collected := [];
      r := FilterByName(viewArr, name);
      FilterIsSubsequence(viewArr, name);
      forall x {
        PreOrderMembers(root, x);
      }
    }
  }

  /** A view's table, once it exists, never holds more than the six gesture
      kinds' entries. */
  lemma ValidTableBounded(v: View)
    requires v.Valid() && v.gestureDict.Some?
    ensures |v.gestureDict.value| <= 6
  {
    TableBounded(v.gestureDict.value);
  }
}

=== FILE: viewtree.dfy ===
/** The subview tree of a view, as a value, and the pre-order walk that
    `viewArray` performs over it. */
module ViewTree {

  /** A view: its identity, the name of its runtime class and its
      `subviews` in the toolkit's order. */
  datatype ViewNode = ViewNode(id: nat, className: string, subviews: seq<ViewNode>)

  /** All descendants of `v` (never `v` itself) in pre-order: each child is
      listed before its own subtree, siblings in `subviews` order. */
  function PreOrder(v: ViewNode): seq<ViewNode>
    decreases v, 1
  {
    PreOrderSeq(v.subviews)
  }

  /** The pre-order listing of the forest `cs`: for every child, the child
      itself followed by its descendants. */
  function PreOrderSeq(cs: seq<ViewNode>): seq<ViewNode>
    decreases cs, 0
  {
    if cs == [] then []
    else
      var last := cs[|cs| - 1];
      PreOrderSeq(cs[..|cs| - 1]) + [last] + PreOrder(last)
  }

  /** Number of descendants: the direct children plus, for each child, its own
      descendants. */
  function DescendantCount(v: ViewNode): nat
    decreases v, 1
  {
    |v.subviews| + ChildrenCount(v.subviews)
  }

  /** Sum of `DescendantCount` over the forest `cs`. */
  function ChildrenCount(cs: seq<ViewNode>): nat
    decreases cs, 0
  {
    if cs == [] then 0
    else ChildrenCount(cs[1..]) + DescendantCount(cs[0])
  }

  /** `x` is reachable from `v` by one or more steps to a child. */
  ghost predicate IsDescendant(x: ViewNode, v: ViewNode)
    decreases v
  {
    exists i :: 0 <= i < |v.subviews| && (x == v.subviews[i] || IsDescendant(x, v.subviews[i]))
  }

  /** `x` is a child of some tree of `cs`, or a descendant of one. */
  ghost predicate InForest(x: ViewNode, cs: seq<ViewNode>)
  {
    exists i :: 0 <= i < |cs| && (x == cs[i] || IsDescendant(x, cs[i]))
  }

  /** The views of `vs` whose class name is `name`, in their order in `vs`:
      the `filter` that `getSubView` applies. */
  function FilterByName(vs: seq<ViewNode>, name: string): (r: seq<ViewNode>)
    ensures |r| <= |vs|
    ensures forall x :: x in r <==> x in vs && x.className == name
  {
    if vs == [] then []
    else if vs[0].className == name then [vs[0]] + FilterByName(vs[1..], name)
    else FilterByName(vs[1..], name)
  }

  /** `a` is obtained from `b` by deleting elements, keeping the order. */
  predicate IsSubsequence(a: seq<ViewNode>, b: seq<ViewNode>)
  {
    if a == [] then true
    else if b == [] then false
    else if a[0] == b[0] then IsSubsequence(a[1..], b[1..])
    else IsSubsequence(a, b[1..])
  }

  // ---------------------------------------------------------------------
  // Pre-order: length, membership, the root, and order.

  /** The walk lists exactly as many views as the tree has descendants. */
  lemma {:induction false} PreOrderLength(v: ViewNode)
    ensures |PreOrder(v)| == DescendantCount(v)
    decreases v, 1
  {
    PreOrderSeqLength(v.subviews);
  }

  lemma {:induction false} PreOrderSeqLength(cs: seq<ViewNode>)
    ensures |PreOrderSeq(cs)| == |cs| + ChildrenCount(cs)
    decreases cs, 0
  {
    if cs != [] {
      var init, last := cs[..|cs| - 1], cs[|cs| - 1];
      PreOrderSeqLength(init);
      PreOrderLength(last);
      ChildrenCountSnoc(init, last);
      assert init + [last] == cs;
    }
  }

  /** `ChildrenCount` may equally be summed from the back. */
  lemma {:induction false} ChildrenCountSnoc(cs: seq<ViewNode>, c: ViewNode)
    ensures ChildrenCount(cs + [c]) == ChildrenCount(cs) + DescendantCount(c)
  {
    if cs == [] {
      assert [] + [c] == [c];
      assert [c][1..] == [];
    } else {
      assert (cs + [c])[1..] == cs[1..] + [c];
      ChildrenCountSnoc(cs[1..], c);
    }
  }

  /** A view appears in the walk of `v` exactly when it is a descendant of `v`. */
  lemma {:induction false} PreOrderMembers(v: ViewNode, x: ViewNode)
    ensures x in PreOrder(v) <==> IsDescendant(x, v)
    decreases v, 1
  {
    PreOrderSeqMembers(v.subviews, x);
  }

  lemma {:induction false} PreOrderSeqMembers(cs: seq<ViewNode>, x: ViewNode)
    ensures x in PreOrderSeq(cs) <==> InForest(x, cs)
    decreases cs, 0
  {
    if cs != [] {
      var init, last := cs[..|cs| - 1], cs[|cs| - 1];
      PreOrderSeqMembers(init, x);
      PreOrderMembers(last, x);
      if InForest(x, cs) {
        var i :| 0 <= i < |cs| && (x == cs[i] || IsDescendant(x, cs[i]));
        if i < |cs| - 1 {
          assert init[i] == cs[i];
          assert InForest(x, init);
        }
      }
      if InForest(x, init) {
        var i :| 0 <= i < |init| && (x == init[i] || IsDescendant(x, init[i]));
        assert cs[i] == init[i];
      }
    }
  }

  /** A descendant has strictly fewer descendants than its ancestor. */
  lemma {:induction false} DescendantIsSmaller(x: ViewNode, v: ViewNode)
    requires IsDescendant(x, v)
    ensures DescendantCount(x) < DescendantCount(v)
    decreases v
  {
    var i :| 0 <= i < |v.subviews| && (x == v.subviews[i] || IsDescendant(x, v.subviews[i]));
    var c := v.subviews[i];
    if x != c {
      DescendantIsSmaller(x, c);
    }
    ChildCountBound(v.subviews, i);
  }

  lemma {:induction false} ChildCountBound(cs: seq<ViewNode>, i: nat)
    requires i < |cs|
    ensures DescendantCount(cs[i]) <= ChildrenCount(cs)
  {
    if i > 0 {
      ChildCountBound(cs[1..], i - 1);
    }
  }

  /** The root is never part of its own walk. */
  lemma RootExcluded(v: ViewNode)
    ensures v !in PreOrder(v)
  {
    PreOrderMembers(v, v);
    if IsDescendant(v, v) {
      DescendantIsSmaller(v, v);
    }
  }

  /** Pre-order: at every position of the walk, the view found there is
      followed immediately by the walk of its own subtree. */
  lemma {:induction false} SubtreeFollows(v: ViewNode, i: nat)
    requires i < |PreOrder(v)|
    ensures i + 1 + |PreOrder(PreOrder(v)[i])| <= |PreOrder(v)|
    ensures PreOrder(v)[i + 1 .. i + 1 + |PreOrder(PreOrder(v)[i])|] == PreOrder(PreOrder(v)[i])
    decreases v, 1
  {
    SubtreeFollowsSeq(v.subviews, i);
  }

  lemma {:induction false} SubtreeFollowsSeq(cs: seq<ViewNode>, i: nat)
    requires i < |PreOrderSeq(cs)|
    ensures i + 1 + |PreOrder(PreOrderSeq(cs)[i])| <= |PreOrderSeq(cs)|
    ensures PreOrderSeq(cs)[i + 1 .. i + 1 + |PreOrder(PreOrderSeq(cs)[i])|] == PreOrder(PreOrderSeq(cs)[i])
    decreases cs, 0
  {
    var init, last := cs[..|cs| - 1], cs[|cs| - 1];
    var p, q := PreOrderSeq(init), PreOrder(last);
    var s := PreOrderSeq(cs);
    assert s == p + [last] + q;
    if i < |p| {
      SubtreeFollowsSeq(init, i);
      assert s[i] == p[i];
      var n := |PreOrder(p[i])|;
      assert s[i + 1 .. i + 1 + n] == p[i + 1 .. i + 1 + n];
    } else if i == |p| {
      assert s[i] == last;
      assert s[i + 1 .. i + 1 + |q|] == q;
    } else {
      var j := i - |p| - 1;
      SubtreeFollows(last, j);
      assert s[i] == q[j];
      var n := |PreOrder(q[j])|;
      assert s[i + 1 .. i + 1 + n] == q[j + 1 .. j + 1 + n];
    }
  }

  // ---------------------------------------------------------------------
  // Filtering.

  /** Filtering distributes over concatenation. */
  lemma {:induction false} FilterAppend(a: seq<ViewNode>, b: seq<ViewNode>, name: string)
    ensures FilterByName(a + b, name) == FilterByName(a, name) + FilterByName(b, name)
  {
    if a == [] {
      assert a + b == b;
    } else {
      assert (a + b)[1..] == a[1..] + b;
      FilterAppend(a[1..], b, name);
    }
  }

  /** The filtered views keep their relative order: they form a subsequence. */
  lemma {:induction false} FilterIsSubsequence(vs: seq<ViewNode>, name: string)
    ensures IsSubsequence(FilterByName(vs, name), vs)
  {
    if vs != [] {
      FilterIsSubsequence(vs[1..], name);
      var r := FilterByName(vs[1..], name);
      if vs[0].className == name {
        assert ([vs[0]] + r)[1..] == r;
      } else {
        SubsequenceDropHead(r, vs);
      }
    }
  }

  lemma {:induction false} SubsequenceDropHead(a: seq<ViewNode>, b: seq<ViewNode>)
    requires b != [] && IsSubsequence(a, b[1..])
    ensures IsSubsequence(a, b)
    decreases |b|, 0
  {
    if a != [] && a[0] == b[0] {
      SubsequenceTail(a, b[1..]);
    }
  }

  lemma {:induction false} SubsequenceTail(a: seq<ViewNode>, b: seq<ViewNode>)
    requires a != [] && IsSubsequence(a, b)
    ensures IsSubsequence(a[1..], b)
    decreases |b|, 1
  {
    if a[0] != b[0] {
      SubsequenceTail(a, b[1..]);
    }
    SubsequenceDropHead(a[1..], b);
  }
}
